=== FILE: README.md ===
# moving-network in Dafny

A Dafny model of the decision logic of `network.js`, the script that draws
an animated network: nodes drift in from the canvas edges, are pruned once
they leave it, and are joined by lines when closer than 260 pixels, with a
pointer node that follows the mouse. The model covers:

- the `nw` constructor's colour checks: the network colour parsed into
  three bytes, and the background colour validated and given a leading `#`
  (`colors.dfy`, module `Colors`);
- the random helpers and the distance function, with every `Math.random()`
  call turned into a parameter of type `Unit`, a real in [0, 1)
  (`helpers.dfy`, module `Helpers`);
- node creation: spawning just outside one edge (`getRandomNode`,
  `getRandomSpeed`) and seeding inside the canvas (`initNodes`)
  (`nodes.dfy`, module `Nodes`);
- the per-frame state change (`updateNodes`, `addNodeIfy`) and the three
  pointer handlers (`simulation.dfy`, module `Simulation`), built on an
  order-preserving filter (`seqs.dfy`, module `Seqs`);
- the pair and alpha logic of `renderLines` (`edges.dfy`, module `Edges`);
- construction, start-up and one frame (`network.dfy`, module `Network`).

The nodes array is a `seq<Node>`. An ordinary node is a `Particle` with
`real` fields. The pointer node is one shared JavaScript object pushed by
reference, so the model keeps it as a `Pointer` tag in the sequence. Its
coordinates live in the state's `mouse` field, so a mousemove moves every
reference at once and never touches the sequence. Random draws are consumed
in the order `network.js` makes them: seven per created node, because
`getRandomSpeed` is called twice per node and two of its four draws are
thrown away.

Behaviour of `network.js` worth noting, all of it modelled:

- The retention test is strict (`-50 < x < w+50`, same for `y`), so a node
  exactly on the margin is pruned.
- The pointer node is not exempt from pruning. It goes through the same
  test at the mouse's page coordinates.
- The density comparison `count < w*h/25000` is on reals, so the count
  tops up to `ceil(w*h/25000)` (`DensityTarget`).
- `randomSidePos` is `ceil(u*length)`, so 0 can be drawn: the range is
  [0, length].
- Velocity and phase ranges are half-open ([-1, 1), [0.1, 1), [0, 10),
  [20, 50)), as `u*(max-min)+min` with `u < 1` gives.
- An invalid network colour is only reported by the constructor. The
  following `render()` then throws a `TypeError` at `this.networkColor.r`
  (network.js:83), which the model records as `Launch.TypeError`.

## Model

| member | source | states |
|---|---|---|
| Helpers.RandomNumFrom | network.js:323-325 | for min < max the value lies in [min, max); for min == max it is min |
| Helpers.Abs | network.js:331-332 | `Math.abs`: the result is non-negative and is the value or its negation |
| Helpers.Ceil | network.js:327 | `Math.ceil`: the least whole number not below the value |
| Helpers.RandomNumFromReaches | network.js:323-325 | every value in [min, max) is produced by some draw, so the range is covered and not just bounded |
| Helpers.RandomSidePos | network.js:326-328 | the value is a whole number in [0, length] and is the ceiling of u*length |
| Helpers.RandomArrayItem | network.js:320-322 | the chosen item is an element of the non-empty array |
| Helpers.ItemIndex | network.js:321 | the index floor(u*n) lies in [0, n) |
| Helpers.SquaredDistance | network.js:330-335 | the squared distance is (x1-x2)² + (y1-y2)², so the `Math.abs` calls do not change it; it is non-negative and 0 for a point and itself |
| Helpers.SquaredDistanceExample | network.js:330-335 | points (0, 0) and (3, 4) are at squared distance 25, in either order |
| Helpers.SquaredDistanceSymmetric | network.js:330-335 | the distance does not depend on the order of the two points |
| Colors.TrimEnd | network.js:26-29 | the result is a prefix of the input, only whitespace was cut, and it ends in a non-whitespace character |
| Colors.ExecColorPattern | network.js:34-36 | the pattern matches exactly `#` plus six hex digits or six hex digits, and the three groups concatenate to the six digits |
| Colors.HexValue | network.js:34-41 | a hex digit of either case has a value below 16, namely its position in `0123456789abcdef` once lower-cased |
| Colors.HexValueIgnoresCase | network.js:34-41 | an upper-case digit has the value of its lower-case form, as the `i` flag and `parseInt` treat them |
| Colors.PairValue | network.js:39-41 | a hex digit pair has a value in [0, 255] |
| Colors.ParseNetworkColor | network.js:21-46 | a colour is stored iff the argument is a string of `#` plus six hex digits or six hex digits, case-insensitive; each component is the value of its digit pair and lies in [0, 255]; otherwise the colour is unset, with "not a HEX value" iff the pre-check `PassesHexCheck` (length 6, or 7 with `#`, and `NumberAcceptsHex`: `Number('0x'…)` after trimming trailing JavaScript whitespace) failed |
| Colors.HexColorPassesCheck | network.js:21-31 | every well-formed hex colour passes the `Number('0x'…)` pre-check |
| Colors.HexRunIsNumber | network.js:26 | a non-empty run of hex digits is a number after `0x` |
| Colors.NormaliseBackground | network.js:48-69 | an absent background is `#FFFFFF`; a string is accepted iff it passes the pre-check `PassesHexCheck`; an accepted value is seven characters starting with `#`, unchanged if it had one and prefixed with `#` otherwise |
| Colors.BackgroundIdempotent | network.js:59-65 | a stored background is accepted again and stored unchanged |
| Colors.BackgroundAcceptsHexColors | network.js:48-58 | every six-digit hex colour, with or without `#`, is accepted as a background |
| Colors.TrailingSpaceQuirk | network.js:48-66 | "1a2b3 " passes the pre-check: as background it is stored as "#1a2b3 ", as network colour it fails the pattern with the parse error |
| Colors.ParseExample | network.js:33-42 | "#1a2b3c" and "1a2b3c" both give (26, 43, 60) |
| Colors.ParseUpperCaseExample | network.js:33-42 | "#1A2B3C" and "1A2B3C" both give (26, 43, 60) |
| Colors.RejectExamples | network.js:21-46 | "zz0000", "#1a2b3" and a non-string give the "not a HEX value" error |
| Colors.ParseFormatRoundTrip | network.js:33-42 | parsing a formatted byte triple, with or without its `#`, gives the triple back |
| Nodes.SpawnSide | network.js:139 | each edge is chosen for exactly one quarter of the draw's range, in the order top, right, bottom, left |
| Nodes.RandomSpeed | network.js:120-135 | the inward component lies in [0.1, 1) for top and left and in [-1, -0.1) for right and bottom; the other lies in [-1, 1) |
| Nodes.RandomNode | network.js:138-182 | a spawned node sits at y=-R (top), x=w+R (right), y=h+R (bottom) or x=-R (left), with the other coordinate whole and in [0, edge length]; it heads inward, has radius R and a phase in [0, 10) |
| Nodes.RandomNodeIgnoresDiscardedDraws | network.js:145-146 | the two draws thrown away by the double `getRandomSpeed` call do not affect the node |
| Nodes.SeedNode | network.js:262-270 | a seeded node is at whole coordinates inside the canvas, has the top edge's velocity ranges, radius R and a phase in [20, 50) |
| Nodes.SeedCount | network.js:261 | the loop runs floor(num) times for num >= 1 and not at all below 1 |
| Nodes.InitNodes | network.js:260-272 | `initNodes(num)` makes SeedCount(num) nodes, all seeded inside the canvas, node k from the k-th block of draws |
| Seqs.Filter | network.js:199-214 | the kept array is no longer than the input, holds only passing elements, and holds every passing element |
| Seqs.FilterSelectsInOrder | network.js:301-307 | the filter result is the subsequence at strictly increasing positions, and those positions are exactly the passing elements |
| Simulation.AdvanceAll | network.js:199-209 | every node keeps its place and kind; an ordinary node moves by its unchanged velocity and its phase grows by 0.03 |
| Simulation.UpdateNodes | network.js:198-215 | nothing but the array changes; it never grows; every survivor's moved position is within the strict bounds; the pointer node survives iff it was present and the mouse is within the bounds |
| Simulation.UpdateMovesSurvivors | network.js:199-214 | the survivors, in order, are exactly the nodes whose moved position passes the strict bounds test; each ordinary survivor is at old position plus unchanged velocity, with phase plus 0.03 |
| Simulation.DensityTarget | network.js:241-245 | the target is the least whole count not below w*h/25000 |
| Simulation.BelowDensityIff | network.js:242 | the real comparison `count < w*h/25000` holds iff count is below the target |
| Simulation.AddNodeIfy | network.js:241-245 | exactly one node is appended iff the count is below w*h/25000, and otherwise the state is unchanged; the old nodes stay in front, and the new node is spawned from the edge its draw selects |
| Simulation.DensityRamp | network.js:241-245 | repeated calls with no pruning in between grow the count by one per call up to the target, and then stop |
| Simulation.Tick | network.js:253-255 | a frame moves and prunes the nodes exactly as `updateNodes`, then keeps those survivors in front and appends one spawned node iff the survivors are below the density; canvas and pointer position stay, no pointer node is introduced, and the count never exceeds the larger of the old count and the density target |
| Simulation.MouseEnter | network.js:295-298 | with handlers installed, exactly one pointer entry is appended behind the unchanged array; without them, nothing changes |
| Simulation.MouseLeave | network.js:299-308 | with handlers installed, no pointer entry remains, every ordinary node is kept, and nothing new appears |
| Simulation.LeaveKeepsOrdinaryInOrder | network.js:301-307 | mouseleave keeps exactly the ordinary nodes, in their original order |
| Simulation.LeaveUndoesEnter | network.js:295-308 | entering and then leaving restores an array that held no pointer |
| Simulation.LeaveIdempotent | network.js:299-308 | a second mouseleave changes nothing |
| Simulation.MouseMove | network.js:309-313 | the array is unchanged; every pointer entry takes the new coordinates and every ordinary node keeps its position |
| Simulation.EventsKeepOrdinaryNodes | network.js:294-314 | no sequence of pointer events adds, drops, reorders or changes an ordinary node |
| Edges.RenderLines | network.js:218-238 | a line is produced for a pair iff the pair is i < j and closer than 260 (on squares); lines come in strictly increasing loop order |
| Edges.LinesFrom | network.js:221-236 | the inner loop for one i adds exactly the close pairs (i, j), j > i, keeping the loop order |
| Edges.EachPairOnce | network.js:220-221 | in a list in loop order, no pair of indices appears twice |
| Edges.EdgeAlpha | network.js:223-226 | a drawn line's alpha 1 - d/260 lies in (0, 1], and is 1 iff the distance is 0 |
| Edges.DrawnIffWithinLimit | network.js:223-225 | for a distance d >= 0 with d*d = sq, `network.js`'s test d/260 < 1 is the test sq < 260*260 |
| Edges.AlphaExamples | network.js:223-226 | distance 130 gives alpha 0.5 and distance 0 gives alpha 1 |
| Network.Construct | network.js:6-70 | the ids are stored as given; the network colour is set iff the argument is a well-formed hex colour, and then holds the values of its three digit pairs; a given background that is accepted is stored with `#` prepended iff it lacked one; left-out arguments take the defaults `interactive = true`, background `#FFFFFF`, radius 2 and line width 0.8, and given ones are stored as passed |
| Network.ConstructDefaults | network.js:6-19 | `new nw(canvas, parent, color)` is interactive, on `#FFFFFF`, with radius 2 and line width 0.8 |
| Network.StartNetwork | network.js:259-291 | start-up fails iff the network colour is unset; otherwise the canvas has the container's size, floor(w*h/25000) nodes are seeded inside it, and the pointer node is at the origin and not in the array |
| Network.Positions | network.js:231-232 | one position per node in array order: a pointer entry at the mouse, an ordinary node at its own coordinates |
| Network.Frame | network.js:248-257 | lines are chosen from the positions before the update: exactly the close pairs i < j, in loop order; then the nodes are updated and topped up |

## Left out

- Canvas drawing is not modelled. This covers `clearRect`, `fillRect`, `renderNodes`, `stroke`, `lineWidth` and the `rgba(…)` strings. These are effects on a graphics API.
- Host wiring is not modelled. This covers `document.getElementById`, `getAttribute`/`setAttribute`, the resize listener, `requestAnimationFrame`, the `window.event` fallback, and the `nwSetup`/`nwRender` glue at the end of the file. The canvas size is a parameter instead.
- `Math.random` is not modelled. Each call is a `Unit` parameter in [0, 1).
- The opacity `alpha = |cos(phase)|` is left out because it is transcendental. Only the phase step is modelled.
- The pointer node's `NaN` phase and alpha after an update are left out. It has no `phase` field.
- `Math.sqrt` in `getDisOf` is left out. Lines are decided on squared distance. `Edges.DrawnIffWithinLimit` relates that test to the script's `d/260 < 1`.
- `Edges.EdgeAlpha` takes the distance as a given non-negative real, because the model has no square root.
- Arithmetic is on exact reals, not IEEE doubles. Rounding in `x + vx` and in the accumulated `phase + 0.03` is not modelled.
- String lengths are in characters rather than UTF-16 code units. This cannot change the outcome: any character outside the Basic Multilingual Plane already fails both colour checks.
- The text of the `console.error` diagnostics is not modelled. It becomes the `ColorError` value.
- The unused closure variables `node`, `alpha_phase` and `add_mouse_point` are not modelled. The same goes for the pointer node's `r: 0`, `vx: 0` and `vy: 0` fields. Its zero velocity is why `Advance` keeps it in place.
- Network.Construct: a given `interactive` argument is a `bool`. The handler guard `if (this.interactive)` (network.js:294) tests JavaScript truthiness, and a non-boolean argument such as `0` or `"yes"` is not modelled. Likewise a given `nodeRadius` or `lineWidth` is a real, not an arbitrary JavaScript value.
- `Helpers.SquaredDistance` does not state that the distance is 0 only for equal points. The product rule needs nonlinear real arithmetic that the solver does not prove reliably, and no other property depends on it.

=== FILE: colors.dfy ===
/** The colour checks of the `nw` constructor: the network colour is parsed
    into three bytes, the background colour is validated and given a
    leading `#`. */
module Colors {

  /** A constructor argument as the JavaScript code sees it: not passed
      (`undefined`, which selects a default parameter), a string, or a value
      of some other type. */
  datatype Arg = Missing | Str(s: string) | NonString

  datatype Rgb = Rgb(r: nat, g: nat, b: nat)

  /** The two diagnostics the constructor writes with `console.error`; the
      colour field is left unset in both cases. */
  datatype ColorError =
    | NotHexValue     // the pre-check failed
    | ParsingFailed   // the pre-check passed but the pattern did not match

  datatype Parsed<T> = Ok(value: T) | Err(error: ColorError)

  /** The background used when no background argument is passed. */
  const DefaultBackground: string := "#FFFFFF"

  predicate IsHexDigit(c: char)
  {
    '0' <= c <= '9' || 'a' <= c <= 'f' || 'A' <= c <= 'F'
  }

  predicate AllHex(t: string)
  {
    forall i :: 0 <= i < |t| ==> IsHexDigit(t[i])
  }

  /** `s.startsWith('#')`. */
  predicate StartsWithHash(s: string)
  {
    |s| > 0 && s[0] == '#'
  }

  /** A well-formed hex colour: `#` and six hex digits, or six hex digits. */
  predicate IsHexColor(s: string)
  {
    (|s| == 7 && s[0] == '#' && AllHex(s[1..])) || (|s| == 6 && AllHex(s))
  }

  /** The characters `Number()` strips from both ends of a string: the
      ECMAScript WhiteSpace and LineTerminator code points. */
  predicate IsJsWhiteSpace(c: char)
  {
    || c == '\t' || c == '\n' || c == '\U{000B}' || c == '\U{000C}' || c == '\r'
    || c == ' ' || c == '\U{00A0}' || c == '\U{1680}'
    || ('\U{2000}' <= c <= '\U{200A}')
    || c == '\U{2028}' || c == '\U{2029}' || c == '\U{202F}' || c == '\U{205F}'
    || c == '\U{3000}' || c == '\U{FEFF}'
  }

  /** `t` with its trailing whitespace removed. */
  function TrimEnd(t: string): (r: string)
    ensures r <= t
    ensures forall i :: |r| <= i < |t| ==> IsJsWhiteSpace(t[i])
    ensures |r| > 0 ==> !IsJsWhiteSpace(r[|r| - 1])
    decreases |t|
  {
    if |t| > 0 && IsJsWhiteSpace(t[|t| - 1]) then TrimEnd(t[..|t| - 1]) else t
  }

  /** `!isNaN(Number('0x' + t))`. `Number` trims whitespace from both ends
      of its argument; the leading `0x` is not whitespace, so only trailing
      whitespace of `t` goes, and what is left must be a non-empty run of
      hex digits. */
  predicate NumberAcceptsHex(t: string)
  {
    var h := TrimEnd(t);
    |h| > 0 && AllHex(h)
  }

  /** The pre-check both colours go through (network.js lines 21-31 and
      48-58): seven characters starting with `#` whose other six pass
      `Number('0x' + …)`, or six characters that do. */
  predicate PassesHexCheck(s: string)
  {
    || (|s| == 7 && StartsWithHash(s) && NumberAcceptsHex(s[1..7]))
    || (|s| == 6 && NumberAcceptsHex(s))
  }

  /** The capture groups of `/^#?([a-f\d]{2})([a-f\d]{2})([a-f\d]{2})$/i`. */
  datatype Match = NoMatch | Groups(g1: string, g2: string, g3: string)

  /** Executes the colour pattern on `t`. */
  function ExecColorPattern(t: string): (m: Match)
    ensures m.Groups? <==> IsHexColor(t)
    ensures m.Groups? ==> |m.g1| == 2 && |m.g2| == 2 && |m.g3| == 2
    ensures m.Groups? ==> AllHex(m.g1) && AllHex(m.g2) && AllHex(m.g3)
    ensures m.Groups? ==> m.g1 + m.g2 + m.g3 == (if StartsWithHash(t) then t[1..] else t)
  {
    var body := if StartsWithHash(t) then t[1..] else t;
    if |body| == 6 && AllHex(body) then
      assert body == body[0..2] + body[2..4] + body[4..6];
      Groups(body[0..2], body[2..4], body[4..6])
    else
      NoMatch
  }

  /** The sixteen digits in value order, lower case. */
  const HexDigits: string := "0123456789abcdef"

  /** The lower-case form of a hex digit; other digits are unchanged. */
  function LowerHex(c: char): char
  {
    if 'A' <= c <= 'F' then (c as int - 'A' as int + 'a' as int) as char else c
  }

  /** The value of one hex digit, either case: its position in the digit
      table once lower-cased. */
  function HexValue(c: char): (v: nat)
    requires IsHexDigit(c)
    ensures v < 16
    ensures HexDigits[v] == LowerHex(c)
  {
    if '0' <= c <= '9' then c as int - '0' as int
    else if 'a' <= c <= 'f' then c as int - 'a' as int + 10
    else c as int - 'A' as int + 10
  }

  /** `parseInt(p, 16)` for a pair of hex digits. */
  function PairValue(p: string): (v: nat)
    requires |p| == 2 && AllHex(p)
    ensures v <= 255
  {
    16 * HexValue(p[0]) + HexValue(p[1])
  }

  predicate IsByteTriple(c: Rgb)
  {
    c.r <= 255 && c.g <= 255 && c.b <= 255
  }

  /** The network colour as the constructor stores it (network.js lines
      21-46). */
  function ParseNetworkColor(a: Arg): (res: Parsed<Rgb>)
    ensures res.Ok? <==> a.Str? && IsHexColor(a.s)
    ensures res == Err(NotHexValue) <==> !(a.Str? && PassesHexCheck(a.s))
    ensures res.Ok? ==> IsByteTriple(res.value)
    ensures res.Ok? ==>
      var d := if StartsWithHash(a.s) then a.s[1..] else a.s;
      && |d| == 6 && AllHex(d)
      && res.value == Rgb(PairValue(d[0..2]), PairValue(d[2..4]), PairValue(d[4..6]))
  {
    if a.Str? && PassesHexCheck(a.s) then
      var s := a.s;
      var subject := if StartsWithHash(s) then s else "#" + s;
      assert StartsWithHash(subject) && subject[1..] == (if StartsWithHash(s) then s[1..] else s);
      match ExecColorPattern(subject)
      case NoMatch => Err(ParsingFailed)
      case Groups(g1, g2, g3) =>
        assert g1 + g2 + g3 == subject[1..];
        Ok(Rgb(PairValue(g1), PairValue(g2), PairValue(g3)))
    else
      HexColorPassesCheck(a);
      Err(NotHexValue)
  }

  lemma HexColorPassesCheck(a: Arg)
    ensures a.Str? && IsHexColor(a.s) ==> PassesHexCheck(a.s)
  {
    if a.Str? && IsHexColor(a.s) {
      var s := a.s;
      if |s| == 7 {
        HexRunIsNumber(s[1..7]);
      } else {
        HexRunIsNumber(s);
      }
    }
  }

  /** A non-empty run of hex digits passes `Number('0x' + …)`. */
  lemma HexRunIsNumber(t: string)
    requires |t| > 0 && AllHex(t)
    ensures TrimEnd(t) == t
    ensures NumberAcceptsHex(t)
  {
    assert !IsJsWhiteSpace(t[|t| - 1]);
  }

  /** The background colour as the constructor stores it (network.js lines
      11 and 48-69). */
  function NormaliseBackground(a: Arg): (res: Parsed<string>)
    ensures a.Missing? ==> res == Ok(DefaultBackground)
    ensures a.NonString? ==> res == Err(NotHexValue)
    ensures a.Str? ==> (res.Ok? <==> PassesHexCheck(a.s))
    ensures res.Ok? ==> |res.value| == 7 && StartsWithHash(res.value)
    ensures res.Ok? && a.Str? && StartsWithHash(a.s) ==> res.value == a.s
    ensures res.Ok? && a.Str? && !StartsWithHash(a.s) ==> res.value == "#" + a.s
    ensures res.Err? ==> res.error == NotHexValue
  {
    var s := if a.Missing? then DefaultBackground else if a.Str? then a.s else "";
    if !a.NonString? && PassesHexCheck(s) then
      if StartsWithHash(s) then Ok(s) else Ok("#" + s)
    else
      assert a.Missing? ==> PassesHexCheck(s) by {
        if a.Missing? {
          HexRunIsNumber("FFFFFF");
        }
      }
      Err(NotHexValue)
  }

  /** A stored background colour is accepted again, unchanged. */
  lemma BackgroundIdempotent(a: Arg)
    ensures var res := NormaliseBackground(a);
      res.Ok? ==> NormaliseBackground(Str(res.value)) == res
  {
    var res := NormaliseBackground(a);
    if res.Ok? && a.Str? && !StartsWithHash(a.s) {
      assert ("#" + a.s)[1..7] == a.s;
    }
  }

  /** Every six-digit hex colour, with or without `#`, is accepted as a
      background. */
  lemma BackgroundAcceptsHexColors(s: string)
    requires IsHexColor(s)
    ensures NormaliseBackground(Str(s)).Ok?
  {
    HexColorPassesCheck(Str(s));
  }

  /** The pre-check is looser than six hex digits: a trailing space passes
      it, so such a background is stored, while the same string as a network
      colour is stopped by the pattern. */
  lemma TrailingSpaceQuirk()
    ensures NormaliseBackground(Str("1a2b3 ")) == Ok("#1a2b3 ")
    ensures ParseNetworkColor(Str("1a2b3 ")) == Err(ParsingFailed)
  {
    var t := "1a2b3 ";
    assert TrimEnd(t) == TrimEnd("1a2b3") == "1a2b3" by {
      assert t[..|t| - 1] == "1a2b3";
      HexRunIsNumber("1a2b3");
    }
    assert PassesHexCheck(t);
    assert "#" + t == "#1a2b3 ";
    assert !IsHexColor(t) by {
      assert !IsHexDigit(t[5]);
    }
  }

  /** The worked example: `#1a2b3c` and `1a2b3c` both give (26, 43, 60). */
  lemma ParseExample()
    ensures ParseNetworkColor(Str("#1a2b3c")) == Ok(Rgb(26, 43, 60))
    ensures ParseNetworkColor(Str("1a2b3c")) == Ok(Rgb(26, 43, 60))
  {
    var s := "#1a2b3c";
    var d := s[1..];
    assert d == "1a2b3c";
    assert AllHex(d) && !StartsWithHash(d);
    assert d[0..2] == "1a" && d[2..4] == "2b" && d[4..6] == "3c";
    assert PairValue("1a") == 26 && PairValue("2b") == 43 && PairValue("3c") == 60;
  }

  /** A non-hex digit or a wrong length gives the "not a HEX value" error. */
  lemma RejectExamples()
    ensures ParseNetworkColor(Str("zz0000")) == Err(NotHexValue)
    ensures ParseNetworkColor(Str("#1a2b3")) == Err(NotHexValue)
    ensures ParseNetworkColor(NonString) == Err(NotHexValue)
  {
    var z := "zz0000";
    assert !NumberAcceptsHex(z) by {
      assert TrimEnd(z) == z;
      assert !IsHexDigit(z[0]);
    }
    var w := "#1a2b3";
    assert !PassesHexCheck(w) by {
      assert TrimEnd(w) == w;
      assert !IsHexDigit(w[0]);
    }
  }

  /** The lower-case digit for a value below 16. */
  function HexDigit(v: nat): (c: char)
    requires v < 16
    ensures IsHexDigit(c) && HexValue(c) == v
  {
    HexDigits[v]
  }

  /** Upper- and lower-case forms of a digit have the same value, as the
      pattern's `i` flag and `parseInt` treat them. */
  lemma HexValueIgnoresCase(c: char)
    requires 'A' <= c <= 'F'
    ensures IsHexDigit(LowerHex(c)) && HexValue(c) == HexValue(LowerHex(c))
  {
  }

  /** The worked example in upper case gives the same triple. */
  lemma ParseUpperCaseExample()
    ensures ParseNetworkColor(Str("#1A2B3C")) == Ok(Rgb(26, 43, 60))
    ensures ParseNetworkColor(Str("1A2B3C")) == Ok(Rgb(26, 43, 60))
  {
    var s := "#1A2B3C";
    var d := s[1..];
    assert d == "1A2B3C";
    assert AllHex(d) && !StartsWithHash(d);
    assert d[0..2] == "1A" && d[2..4] == "2B" && d[4..6] == "3C";
    assert PairValue("1A") == 26 && PairValue("2B") == 43 && PairValue("3C") == 60;
  }

  /** `#rrggbb` for a byte triple: the form the colour pattern reads back. */
  function FormatColor(c: Rgb): (s: string)
    requires IsByteTriple(c)
    ensures IsHexColor(s) && StartsWithHash(s)
  {
    ['#', HexDigit(c.r / 16), HexDigit(c.r % 16), HexDigit(c.g / 16), HexDigit(c.g % 16),
     HexDigit(c.b / 16), HexDigit(c.b % 16)]
  }

  /** Parsing a formatted colour, with or without its `#`, gives the colour
      back. */
  lemma ParseFormatRoundTrip(c: Rgb)
    requires IsByteTriple(c)
    ensures ParseNetworkColor(Str(FormatColor(c))) == Ok(c)
    ensures ParseNetworkColor(Str(FormatColor(c)[1..])) == Ok(c)
  {
    var s := FormatColor(c);
    var d := s[1..];
    assert !StartsWithHash(d) by {
      assert IsHexDigit(d[0]);
    }
    assert PairValue(d[0..2]) == c.r;
    assert PairValue(d[2..4]) == c.g;
    assert PairValue(d[4..6]) == c.b;
  }
}

=== FILE: edges.dfy ===
/** The pair and alpha logic of `renderLines`: which pairs of nodes get a
    line, in which order, and how opaque it is. The stroke itself is not
    modelled. */
module Edges {
  import opened Helpers

  /** `dis_limit`: the distance at which a line fades out entirely. */
  const DisLimit: real := 260.0

  /** A line between the nodes at positions `i` and `j` of the array, with
      the squared distance between them. */
  datatype Edge = Edge(i: nat, j: nat, sqDist: real)

  /** The two points are closer than `dis_limit`, compared on squares. */
  predicate Close(a: Point, b: Point)
  {
    SquaredDistance(a, b) < DisLimit * DisLimit
  }

  /** Lexicographic order on the pair of indices: the order of the two
      nested loops. */
  predicate Before(e: Edge, f: Edge)
  {
    e.i < f.i || (e.i == f.i && e.j < f.j)
  }

  /** `e` joins two close nodes of `pts`, lower index first, and carries
      their squared distance. */
  predicate Drawable(pts: seq<Point>, e: Edge)
  {
    e.i < e.j < |pts| && e.sqDist == SquaredDistance(pts[e.i], pts[e.j]) && Close(pts[e.i], pts[e.j])
  }

  /** The lines in `edges` come in strictly increasing loop order. */
  predicate InLoopOrder(edges: seq<Edge>)
  {
    forall k, l :: 0 <= k < l < |edges| ==> Before(edges[k], edges[l])
  }

  /** Every close pair `(a, b)` that the loops reach before `(i, j)` has
      its line in `edges`. */
  predicate CoversUpTo(pts: seq<Point>, edges: seq<Edge>, i: nat, j: nat)
  {
    forall a, b :: 0 <= a < b < |pts| && Close(pts[a], pts[b]) && (a < i || (a == i && b < j)) ==>
      Edge(a, b, SquaredDistance(pts[a], pts[b])) in edges
  }

  /** The loops of `renderLines` over the node positions `pts`: for
      `i < j` in loop order, a line whenever the pair is close. Every close
      pair is drawn, nothing else is, and no pair is visited twice. */
  method RenderLines(pts: seq<Point>) returns (edges: seq<Edge>)
    ensures forall e :: e in edges ==> Drawable(pts, e)
    ensures forall a, b :: 0 <= a < b < |pts| && Close(pts[a], pts[b]) ==>
      Edge(a, b, SquaredDistance(pts[a], pts[b])) in edges
    ensures InLoopOrder(edges)
  {
    edges := [];
    var i := 0;
    while i < |pts|
      invariant 0 <= i <= |pts|
      invariant forall e :: e in edges ==> e.i < i && Drawable(pts, e)
      invariant CoversUpTo(pts, edges, i, 0)
      invariant InLoopOrder(edges)
    {
      edges := LinesFrom(pts, i, edges);
      i := i + 1;
    }
  }

  /** The inner loop of `renderLines` for one `i`: appends the lines from
      node `i` to each later close node. */
  method LinesFrom(pts: seq<Point>, i: nat, prior: seq<Edge>) returns (edges: seq<Edge>)
    requires i < |pts|
    requires forall e :: e in prior ==> e.i < i && Drawable(pts, e)
    requires CoversUpTo(pts, prior, i, 0)
    requires InLoopOrder(prior)
    ensures forall e :: e in edges ==> e.i <= i && Drawable(pts, e)
    ensures CoversUpTo(pts, edges, i + 1, 0)
    ensures InLoopOrder(edges)
  {
    edges := prior;
    var j := i + 1;
    while j < |pts|
      invariant i + 1 <= j <= |pts|
      invariant forall e :: e in edges ==> (e.i < i || (e.i == i && e.j < j)) && Drawable(pts, e)
      invariant CoversUpTo(pts, edges, i, j)
      invariant InLoopOrder(edges)
    {
      var sq := SquaredDistance(pts[i], pts[j]);
      if sq < DisLimit * DisLimit {
        var e := Edge(i, j, sq);
        forall k | 0 <= k < |edges|
          ensures Before(edges[k], e)
        {
          assert edges[k] in edges;
        }
        edges := edges + [e];
      }
      j := j + 1;
    }
  }

  /** No pair of indices is drawn twice. */
  lemma EachPairOnce(edges: seq<Edge>)
    requires forall k, l :: 0 <= k < l < |edges| ==> Before(edges[k], edges[l])
    ensures forall k, l :: 0 <= k < |edges| && 0 <= l < |edges| && k != l ==>
      (edges[k].i, edges[k].j) != (edges[l].i, edges[l].j)
  {
    forall k, l | 0 <= k < |edges| && 0 <= l < |edges| && k != l
      ensures (edges[k].i, edges[k].j) != (edges[l].i, edges[l].j)
    {
      if k < l {
        assert Before(edges[k], edges[l]);
      } else {
        assert Before(edges[l], edges[k]);
      }
    }
  }

  /** The stroke opacity `1 - d/260` of a line between nodes at distance
      `d`. */
  function EdgeAlpha(d: real): (alpha: real)
    requires d >= 0.0
    ensures d / DisLimit < 1.0 ==> 0.0 < alpha <= 1.0
    ensures alpha == 1.0 <==> d == 0.0
    ensures alpha <= 1.0
  {
    1.0 - d / DisLimit
  }

  /** `renderLines` compares `d/260 < 1` for the distance `d`; for a
      non-negative `d` with `d*d == sq` that is `sq < 260*260`, the test
      `RenderLines` makes. */
  lemma {:induction false} DrawnIffWithinLimit(d: real, sq: real)
    requires d >= 0.0 && d * d == sq
    ensures d / DisLimit < 1.0 <==> sq < DisLimit * DisLimit
  {
    if d < DisLimit {
      calc {
        sq;
      == d * d;
      <= d * DisLimit;
      < DisLimit * DisLimit;
      }
    } else {
      calc {
        sq;
      == d * d;
      >= d * DisLimit;
      >= DisLimit * DisLimit;
      }
    }
  }

  /** Half the limit gives half opacity; coinciding nodes give full
      opacity. */
  lemma AlphaExamples()
    ensures EdgeAlpha(130.0) == 0.5
    ensures EdgeAlpha(0.0) == 1.0
  {
  }
}

=== FILE: helpers.dfy ===
/** The pure helper functions at the foot of `render()`: random draws turned
    into values, and the distance between two points. Every call of
    `Math.random()` is a parameter of type `Unit`. */
module Helpers {

  /** One draw of `Math.random()`: a real in [0, 1). */
  type Unit = u: real | 0.0 <= u < 1.0

  /** A canvas position (also the pointer's page coordinates). */
  datatype Point = Point(x: real, y: real)

  /** `Math.abs`. */
  function Abs(v: real): (r: real)
    ensures r >= 0.0 && (r == v || r == -v)
  {
    if v < 0.0 then -v else v
  }

  /** `Math.ceil`: the least integer not below `v`. */
  function Ceil(v: real): (r: int)
    ensures v <= r as real < v + 1.0
  {
    if v.Floor as real == v then v.Floor else v.Floor + 1
  }

  /** A draw scaled by a length stays in [0, length), or is 0 when the
      length is 0. */
  lemma ScaledDrawBelow(u: Unit, len: real)
    requires len >= 0.0
    ensures 0.0 <= u * len <= len
    ensures len > 0.0 ==> u * len < len
    ensures len == 0.0 ==> u * len == 0.0
  {
    if len > 0.0 {
      assert (1.0 - u) * len > 0.0;
    }
  }

  /** `randomNumFrom(min, max)`: `Math.random() * (max - min) + min`. */
  function RandomNumFrom(min: real, max: real, u: Unit): (r: real)
    ensures min < max ==> min <= r < max
    ensures min == max ==> r == min
  {
    var span := max - min;
    if min <= max then
      ScaledDrawBelow(u, span);
      u * span + min
    else
      u * span + min
  }

  /** Every value of [min, max) is drawn by some `u`: the scaling maps
      [0, 1) onto the whole range. */
  lemma RandomNumFromReaches(min: real, max: real, v: real)
    requires min <= v < max
    ensures exists u: Unit :: RandomNumFrom(min, max, u) == v
  {
    var span := max - min;
    var q := (v - min) / span;
    assert q * span == v - min;
    FractionBelowOne(v - min, span);
    var u: Unit := q;
    assert RandomNumFrom(min, max, u) == v;
  }

  /** A fraction with numerator in [0, b) lies in [0, 1). */
  lemma FractionBelowOne(a: real, b: real)
    requires 0.0 <= a < b
    ensures 0.0 <= a / b < 1.0
  {
    var q := a / b;
    assert q * b == a;
    assert (1.0 - q) * b == b - a;
  }

  /** `randomSidePos(length)`: `Math.ceil(Math.random() * length)`, a whole
      number between 0 and `length` inclusive. */
  function RandomSidePos(length: nat, u: Unit): (r: int)
    ensures 0 <= r <= length
    ensures (r - 1) as real < u * (length as real) <= r as real
  {
    var len := length as real;
    ScaledDrawBelow(u, len);
    var r := Ceil(u * len);
    calc {
      r as real;
    < u * len + 1.0;
    <= len + 1.0;
    }
    r
  }

  /** `randomArrayItem(arr)`: the element at `Math.floor(Math.random() * arr.length)`. */
  function RandomArrayItem<T>(items: seq<T>, u: Unit): (r: T)
    requires |items| > 0
    ensures r in items
  {
    ScaledDrawBelow(u, |items| as real);
    items[ItemIndex(|items|, u)]
  }

  /** The index `Math.floor(u * n)` that `randomArrayItem` reads. */
  function ItemIndex(n: nat, u: Unit): (k: nat)
    requires n > 0
    ensures k < n
    ensures k as real <= u * n as real < (k + 1) as real
  {
    ScaledDrawBelow(u, n as real);
    (u * n as real).Floor
  }

  /** `getDisOf` without its final square root: `dx*dx + dy*dy` with
      `dx = |b1.x - b2.x|` and `dy = |b1.y - b2.y|`. */
  function SquaredDistance(a: Point, b: Point): (r: real)
    ensures r >= 0.0
    ensures a == b ==> r == 0.0
    ensures r == (a.x - b.x) * (a.x - b.x) + (a.y - b.y) * (a.y - b.y)
  {
    var dx := Abs(a.x - b.x);
    var dy := Abs(a.y - b.y);
    SquareSign(dx);
    SquareSign(dy);
    dx * dx + dy * dy
  }

  /** A 3-4-5 triangle: the squared distance is 25. */
  lemma SquaredDistanceExample()
    ensures SquaredDistance(Point(0.0, 0.0), Point(3.0, 4.0)) == 25.0
    ensures SquaredDistance(Point(3.0, 4.0), Point(0.0, 0.0)) == 25.0
  {
  }

  lemma SquareSign(d: real)
    requires d >= 0.0
    ensures d * d >= 0.0
    ensures d == 0.0 ==> d * d == 0.0
  {
  }

  /** The distance does not depend on the order of the two points. */
  lemma SquaredDistanceSymmetric(a: Point, b: Point)
    ensures SquaredDistance(a, b) == SquaredDistance(b, a)
  {
  }
}

=== FILE: network.dfy ===
/** The `nw` class: its constructor, the start of `render()`, and one
    animation frame. */
module Network {
  import opened Helpers
  import opened Colors
  import opened Nodes
  import opened Simulation
  import opened Edges

  /** The fields the constructor stores. A colour that failed its check
      is left unset (`Err`). */
  datatype Instance = Instance(
    canvasId: string,
    parentId: string,
    nodeRadius: real,
    lineWidth: real,
    interactive: bool,
    networkColor: Parsed<Rgb>,
    networkBackground: Parsed<string>)

  /** A trailing constructor argument: left out (`undefined`, so the
      default applies) or given. */
  datatype Opt<T> = Default | Given(value: T)

  const DefaultNodeRadius: real := 2.0
  const DefaultLineWidth: real := 0.8

  /** The argument, or `d` when it was left out. */
  function OrDefault<T>(a: Opt<T>, d: T): T
  {
    if a.Given? then a.value else d
  }

  /** `new nw(...)`. Left-out trailing arguments take the script's
      defaults: `interactive = true`, `networkBackground = '#FFFFFF'` (an
      argument of `Missing`), `nodeRadius = 2` and `lineWidth = 0.8`. */
  function Construct(
    canvasId: string,
    parentId: string,
    networkColor: Arg,
    interactive: Opt<bool>,
    networkBackground: Arg,
    nodeRadius: Opt<real>,
    lineWidth: Opt<real>): (inst: Instance)
    ensures inst.networkColor.Ok? <==> networkColor.Str? && IsHexColor(networkColor.s)
    ensures inst.networkColor.Ok? ==> IsByteTriple(inst.networkColor.value)
    ensures inst.networkBackground.Ok? ==> StartsWithHash(inst.networkBackground.value)
    ensures networkBackground.Missing? ==> inst.networkBackground == Ok(DefaultBackground)
    ensures inst.canvasId == canvasId && inst.parentId == parentId
    ensures inst.networkColor.Ok? ==>
      var d := if StartsWithHash(networkColor.s) then networkColor.s[1..] else networkColor.s;
      && |d| == 6 && AllHex(d)
      && inst.networkColor.value == Rgb(PairValue(d[0..2]), PairValue(d[2..4]), PairValue(d[4..6]))
    ensures inst.networkBackground.Ok? && networkBackground.Str? ==>
      inst.networkBackground.value ==
        if StartsWithHash(networkBackground.s) then networkBackground.s else "#" + networkBackground.s
    ensures !inst.interactive <==> interactive == Given(false)
    ensures nodeRadius.Default? ==> inst.nodeRadius == DefaultNodeRadius
    ensures lineWidth.Default? ==> inst.lineWidth == DefaultLineWidth
    ensures nodeRadius.Given? ==> inst.nodeRadius == nodeRadius.value
    ensures lineWidth.Given? ==> inst.lineWidth == lineWidth.value
  {
    Instance(canvasId, parentId,
      OrDefault(nodeRadius, DefaultNodeRadius), OrDefault(lineWidth, DefaultLineWidth),
      OrDefault(interactive, true),
      ParseNetworkColor(networkColor), NormaliseBackground(networkBackground))
  }

  /** `new nw(canvasId, parentId, color)`: an interactive network on a
      white background with radius 2 and line width 0.8. */
  lemma ConstructDefaults(canvasId: string, parentId: string, networkColor: Arg)
    ensures var inst := Construct(canvasId, parentId, networkColor, Default, Missing, Default, Default);
      && inst.interactive
      && inst.networkBackground == Ok("#FFFFFF")
      && inst.nodeRadius == 2.0
      && inst.lineWidth == 0.8
  {
  }

  /** What `render()` leads to: the running animation, or the `TypeError`
      thrown when it reads `this.networkColor.r` of an unset colour. */
  datatype Launch = Running(sim: Sim, nodeColor: Rgb) | TypeError

  /** The draws `initNodes` needs on a `w` by `h` canvas. */
  function SeedDraws(w: nat, h: nat): nat
  {
    DrawsPerNode * SeedCount((w * h) as real / Norm)
  }

  /** `render()` up to the first frame request: the canvas is sized to its
      container (`w` by `h`, read from the page), `initNodes` seeds
      `w*h/25000` nodes inside it, and the pointer node starts at the
      origin, outside the array. */
  method StartNetwork(inst: Instance, w: nat, h: nat, ds: seq<Unit>) returns (r: Launch)
    requires |ds| >= SeedDraws(w, h)
    ensures r.Running? <==> inst.networkColor.Ok?
    ensures r.Running? ==>
      && r.nodeColor == inst.networkColor.value
      && r.sim.width == w && r.sim.height == h
      && r.sim.radius == inst.nodeRadius
      && r.sim.interactive == inst.interactive
      && r.sim.mouse == Point(0.0, 0.0) && !r.sim.mouseIn
      && |r.sim.nodes| == (w * h) / 25000
      && |r.sim.nodes| <= DensityTarget(w, h)
      && (forall k :: 0 <= k < |r.sim.nodes| ==> Seeded(r.sim.nodes[k], w, h, inst.nodeRadius))
  {
    if inst.networkColor.Err? {
      return TypeError;
    }
    var num := (w * h) as real / Norm;
    assert SeedCount(num) == (w * h) / 25000;
    var nodes := InitNodes(num, w, h, inst.nodeRadius, ds);
    var sim := Sim(w, h, inst.nodeRadius, inst.interactive, nodes, Point(0.0, 0.0), false);
    r := Running(sim, inst.networkColor.value);
  }

  /** The positions `renderLines` reads, in array order: every pointer
      entry is at the mouse, every other node at its own coordinates. */
  function Positions(s: Sim): (pts: seq<Point>)
    ensures |pts| == |s.nodes|
    ensures forall i :: 0 <= i < |s.nodes| ==> pts[i] == PositionOf(s.mouse, s.nodes[i])
    ensures forall i :: 0 <= i < |s.nodes| && s.nodes[i] == Pointer ==> pts[i] == s.mouse
    ensures forall i :: 0 <= i < |s.nodes| && s.nodes[i].Particle? ==>
      pts[i].x == s.nodes[i].x && pts[i].y == s.nodes[i].y
  {
    seq(|s.nodes|, i requires 0 <= i < |s.nodes| => PositionOf(s.mouse, s.nodes[i]))
  }

  /** One call of the frame callback: lines are chosen from the positions
      before the update, then the nodes are updated and topped up. */
  method Frame(s: Sim, ds: seq<Unit>) returns (edges: seq<Edge>, next: Sim)
    requires |ds| == DrawsPerNode
    ensures forall e :: e in edges ==> Drawable(Positions(s), e)
    ensures CoversUpTo(Positions(s), edges, |s.nodes|, 0)
    ensures InLoopOrder(edges)
    ensures next == Tick(s, ds)
  {
    edges := RenderLines(Positions(s));
    next := Tick(s, ds);
  }
}

=== FILE: nodes.dfy ===
/** Node records and the two ways `render()` creates them: spawning just
    outside one canvas edge (`getRandomNode`) and seeding inside the canvas
    at start (`initNodes`). */
module Nodes {
  import opened Helpers

  /** An element of the `nodes` array. An ordinary node carries its own
      fields; the pointer node is one shared object (`mouse_node`) whose
      position lives in the simulation state, so every reference to it in
      the array sees the same coordinates. The rendering opacity `alpha`
      is not modelled. */
  datatype Node =
    | Particle(x: real, y: real, vx: real, vy: real, r: real, phase: real)
    | Pointer

  datatype Side = Top | Right | Bottom | Left

  /** The array `randomArrayItem` picks the spawn edge from. */
  const Sides: seq<Side> := [Top, Right, Bottom, Left]

  /** `Math.random()` draws consumed per created node: one for the edge
      (or the x coordinate when seeding), one for the coordinate along the
      edge, two per `getRandomSpeed` call made twice, and one for the phase. */
  const DrawsPerNode: nat := 7

  /** The spawn edge: each of the four edges owns a quarter of the draw's
      range. */
  function SpawnSide(u: Unit): (side: Side)
    ensures side == Top <==> u < 0.25
    ensures side == Right <==> 0.25 <= u < 0.5
    ensures side == Bottom <==> 0.5 <= u < 0.75
    ensures side == Left <==> 0.75 <= u
  {
    RandomArrayItem(Sides, u)
  }

  /** The velocity ranges of `getRandomSpeed`: the component along the
      edge's normal points into the canvas and is at least 0.1 in size, the
      other lies in [-1, 1). */
  predicate HeadsInward(side: Side, vx: real, vy: real)
  {
    match side
    case Top => -1.0 <= vx < 1.0 && 0.1 <= vy < 1.0
    case Right => -1.0 <= vx < -0.1 && -1.0 <= vy < 1.0
    case Bottom => -1.0 <= vx < 1.0 && -1.0 <= vy < -0.1
    case Left => 0.1 <= vx < 1.0 && -1.0 <= vy < 1.0
  }

  predicate IsWhole(v: real)
  {
    v.Floor as real == v
  }

  /** Where `getRandomNode` places a node of radius `R` entering from
      `side` of a `w` by `h` canvas: one radius beyond the edge, at a whole
      coordinate between 0 and the edge's length. */
  predicate PlacedOn(side: Side, x: real, y: real, w: nat, h: nat, R: real)
  {
    match side
    case Top => y == -R && 0.0 <= x <= w as real && IsWhole(x)
    case Right => x == w as real + R && 0.0 <= y <= h as real && IsWhole(y)
    case Bottom => y == h as real + R && 0.0 <= x <= w as real && IsWhole(x)
    case Left => x == -R && 0.0 <= y <= h as real && IsWhole(y)
  }

  /** `getRandomSpeed(pos)` for the four edges; the script's default
      branch is unreachable because `Side` has no other value. */
  function RandomSpeed(side: Side, u1: Unit, u2: Unit): (v: (real, real))
    ensures HeadsInward(side, v.0, v.1)
  {
    match side
    case Top => (RandomNumFrom(-1.0, 1.0, u1), RandomNumFrom(0.1, 1.0, u2))
    case Right => (RandomNumFrom(-1.0, -0.1, u1), RandomNumFrom(-1.0, 1.0, u2))
    case Bottom => (RandomNumFrom(-1.0, 1.0, u1), RandomNumFrom(-1.0, -0.1, u2))
    case Left => (RandomNumFrom(0.1, 1.0, u1), RandomNumFrom(-1.0, 1.0, u2))
  }

  /** A node spawned from `side`: placed just outside that edge, heading
      inward, with the configured radius and a phase in [0, 10). */
  predicate SpawnedFrom(side: Side, n: Node, w: nat, h: nat, R: real)
  {
    && n.Particle?
    && PlacedOn(side, n.x, n.y, w, h, R)
    && HeadsInward(side, n.vx, n.vy)
    && n.r == R
    && 0.0 <= n.phase < 10.0
  }

  /** `getRandomNode()` on a `w` by `h` canvas with node radius `R`,
      consuming the draws `ds` in the order `network.js` makes them. The
      object literal calls `getRandomSpeed` once for `vx` and again for
      `vy`, so draws 3 and 4 are discarded. */
  function RandomNode(w: nat, h: nat, R: real, ds: seq<Unit>): (n: Node)
    requires |ds| == DrawsPerNode
    ensures SpawnedFrom(SpawnSide(ds[0]), n, w, h, R)
  {
    var side := SpawnSide(ds[0]);
    var along := RandomSidePos(if side == Top || side == Bottom then w else h, ds[1]) as real;
    var vx := RandomSpeed(side, ds[2], ds[3]).0;
    var vy := RandomSpeed(side, ds[4], ds[5]).1;
    var phase := RandomNumFrom(0.0, 10.0, ds[6]);
    match side
    case Top => Particle(along, -R, vx, vy, R, phase)
    case Right => Particle(w as real + R, along, vx, vy, R, phase)
    case Bottom => Particle(along, h as real + R, vx, vy, R, phase)
    case Left => Particle(-R, along, vx, vy, R, phase)
  }

  /** The two draws that the double call of `getRandomSpeed` throws away
      have no effect on the spawned node. */
  lemma RandomNodeIgnoresDiscardedDraws(w: nat, h: nat, R: real, ds: seq<Unit>, a: Unit, b: Unit)
    requires |ds| == DrawsPerNode
    ensures RandomNode(w, h, R, ds[3 := a][4 := b]) == RandomNode(w, h, R, ds)
  {
  }

  /** A seeded node: at whole coordinates inside the `w` by `h` canvas,
      with the top edge's velocity ranges and a phase in [20, 50). */
  predicate Seeded(n: Node, w: nat, h: nat, R: real)
  {
    && n.Particle?
    && 0.0 <= n.x <= w as real && IsWhole(n.x)
    && 0.0 <= n.y <= h as real && IsWhole(n.y)
    && HeadsInward(Top, n.vx, n.vy)
    && n.r == R
    && 20.0 <= n.phase < 50.0
  }

  /** One iteration of `initNodes`, consuming the draws `ds` in script
      order (again draws 3 and 4 are discarded). */
  function SeedNode(w: nat, h: nat, R: real, ds: seq<Unit>): (n: Node)
    requires |ds| == DrawsPerNode
    ensures Seeded(n, w, h, R)
  {
    Particle(
      RandomSidePos(w, ds[0]) as real,
      RandomSidePos(h, ds[1]) as real,
      RandomSpeed(Top, ds[2], ds[3]).0,
      RandomSpeed(Top, ds[4], ds[5]).1,
      R,
      RandomNumFrom(20.0, 50.0, ds[6]))
  }

  /** How many times `for (let i = 1; i <= num; i++)` runs. */
  function SeedCount(num: real): (k: nat)
    ensures k as real <= num || k == 0
    ensures num < (k + 1) as real || num < 1.0
    ensures num < 1.0 ==> k == 0
  {
    if num < 1.0 then 0 else num.Floor
  }

  /** `initNodes(num)`: `SeedCount(num)` seeded nodes, node `k` made from
      the `k`-th block of seven draws. */
  method InitNodes(num: real, w: nat, h: nat, R: real, ds: seq<Unit>) returns (nodes: seq<Node>)
    requires |ds| >= DrawsPerNode * SeedCount(num)
    ensures |nodes| == SeedCount(num)
    ensures forall k :: 0 <= k < |nodes| ==> Seeded(nodes[k], w, h, R)
    ensures forall k :: 0 <= k < |nodes| ==>
      nodes[k] == SeedNode(w, h, R, ds[DrawsPerNode * k .. DrawsPerNode * k + DrawsPerNode])
  {
    nodes := [];
    var i := 1;
    while i as real <= num
      invariant 1 <= i <= SeedCount(num) + 1
      invariant |nodes| == i - 1
      invariant forall k :: 0 <= k < |nodes| ==>
        nodes[k] == SeedNode(w, h, R, ds[DrawsPerNode * k .. DrawsPerNode * k + DrawsPerNode])
      decreases SeedCount(num) + 1 - i
    {
      var k := i - 1;
      assert DrawsPerNode * k + DrawsPerNode <= DrawsPerNode * SeedCount(num);
      nodes := nodes + [SeedNode(w, h, R, ds[DrawsPerNode * k .. DrawsPerNode * k + DrawsPerNode])];
      i := i + 1;
    }
  }
}

=== FILE: seqs.dfy ===
/** The filtered-array-copy pattern that `updateNodes` and the mouseleave
    handler both use: walk the array in order and push every element that
    passes a test onto a new array. */
module Seqs {

  /** The elements of `xs` that satisfy `keep`, in their original order. */
  function Filter<T>(keep: T -> bool, xs: seq<T>): (r: seq<T>)
    ensures |r| <= |xs|
    ensures forall i :: 0 <= i < |r| ==> r[i] in xs && keep(r[i])
    ensures forall i :: 0 <= i < |xs| && keep(xs[i]) ==> xs[i] in r
    decreases |xs|
  {
    if xs == [] then []
    else
      var init := Filter(keep, xs[..|xs| - 1]);
      var last := xs[|xs| - 1];
      assert xs == xs[..|xs| - 1] + [last];
      if keep(last) then init + [last] else init
  }

  /** The positions in `xs` of the elements that `Filter` keeps. */
  function KeptIndices<T>(keep: T -> bool, xs: seq<T>): (idx: seq<nat>)
    decreases |xs|
  {
    if xs == [] then []
    else
      var init := KeptIndices(keep, xs[..|xs| - 1]);
      if keep(xs[|xs| - 1]) then init + [|xs| - 1] else init
  }

  /** `r` is the subsequence of `xs` at the strictly increasing positions
      `idx`, and those positions are exactly the ones whose element passes
      `keep`. */
  ghost predicate SelectsInOrder<T>(keep: T -> bool, xs: seq<T>, r: seq<T>, idx: seq<nat>)
  {
    && |idx| == |r|
    && (forall k :: 0 <= k < |idx| ==> idx[k] < |xs| && r[k] == xs[idx[k]])
    && (forall k, l :: 0 <= k < l < |idx| ==> idx[k] < idx[l])
    && (forall i :: 0 <= i < |xs| ==> (keep(xs[i]) <==> i in idx))
  }

  /** One step of the selection: appending `x` to `xs` appends it (and its
      position) to the selection iff it passes. */
  lemma SelectsInOrderSnoc<T>(keep: T -> bool, xs: seq<T>, x: T, r: seq<T>, idx: seq<nat>)
    requires SelectsInOrder(keep, xs, r, idx)
    ensures SelectsInOrder(keep, xs + [x],
      if keep(x) then r + [x] else r,
      if keep(x) then idx + [|xs|] else idx)
  {
    var ys := xs + [x];
    var r' := if keep(x) then r + [x] else r;
    var idx' := if keep(x) then idx + [|xs|] else idx;
    forall k | 0 <= k < |idx'|
      ensures idx'[k] < |ys| && r'[k] == ys[idx'[k]]
    {
      if k < |idx| {
        assert r'[k] == r[k] && idx'[k] == idx[k];
      }
    }
    forall k, l | 0 <= k < l < |idx'|
      ensures idx'[k] < idx'[l]
    {
      if l < |idx| {
        assert idx'[k] == idx[k] && idx'[l] == idx[l];
      } else {
        assert idx'[k] == idx[k];
      }
    }
    forall i | 0 <= i < |ys|
      ensures keep(ys[i]) <==> i in idx'
    {
      if i < |xs| {
        assert ys[i] == xs[i];
        assert i in idx <==> i in idx';
      }
    }
  }

  /** Filtering keeps every passing element, drops every failing one, and
      does not reorder what it keeps. */
  lemma {:induction false} FilterSelectsInOrder<T>(keep: T -> bool, xs: seq<T>)
    ensures SelectsInOrder(keep, xs, Filter(keep, xs), KeptIndices(keep, xs))
    decreases |xs|
  {
    if xs != [] {
      var n := |xs| - 1;
      var pre := xs[..n];
      FilterSelectsInOrder(keep, pre);
      assert xs == pre + [xs[n]];
      SelectsInOrderSnoc(keep, pre, xs[n], Filter(keep, pre), KeptIndices(keep, pre));
    }
  }

  /** When every element passes, filtering changes nothing. */
  lemma {:induction false} FilterAll<T>(keep: T -> bool, xs: seq<T>)
    requires forall i :: 0 <= i < |xs| ==> keep(xs[i])
    ensures Filter(keep, xs) == xs
    decreases |xs|
  {
    if xs != [] {
      FilterAll(keep, xs[..|xs| - 1]);
      assert xs == xs[..|xs| - 1] + [xs[|xs| - 1]];
    }
  }

  /** Filtering an array with one more element appended filters the
      array and then tests that element. */
  lemma FilterSnoc<T>(keep: T -> bool, xs: seq<T>, x: T)
    ensures Filter(keep, xs + [x]) == if keep(x) then Filter(keep, xs) + [x] else Filter(keep, xs)
  {
    assert (xs + [x])[..|xs|] == xs;
  }

  /** Filtering twice with the same test is filtering once. */
  lemma FilterIdempotent<T>(keep: T -> bool, xs: seq<T>)
    ensures Filter(keep, Filter(keep, xs)) == Filter(keep, xs)
  {
    var r := Filter(keep, xs);
    assert forall i :: 0 <= i < |r| ==> r[i] in r;
    FilterAll(keep, r);
  }
}

=== FILE: simulation.dfy ===
/** The state `render()` keeps in its closure and the operations that change
    it: the per-frame update and density top-up, and the three pointer
    handlers. */
module Simulation {
  import opened Helpers
  import opened Nodes
  import Seqs

  /** `norm`: canvas pixels per node of target density. */
  const Norm: real := 25000.0

  /** `alpha_f`: the phase added to every node each frame. */
  const AlphaStep: real := 0.03

  /** How far beyond the canvas a node may be before it is pruned. */
  const Margin: real := 50.0

  /** The closure state: canvas size (`cnv_w`, `cnv_h`, equal to
      `cnv.width`, `cnv.height` once the canvas is initialised), the node
      radius `R`, whether the pointer handlers are installed, the `nodes`
      array, the shared pointer node's position and the `mouse_in` flag. */
  datatype Sim = Sim(
    width: nat,
    height: nat,
    radius: real,
    interactive: bool,
    nodes: seq<Node>,
    mouse: Point,
    mouseIn: bool)

  /** Where a node is: its own coordinates, or the pointer's. */
  function PositionOf(mouse: Point, n: Node): Point
  {
    if n.Pointer? then mouse else Point(n.x, n.y)
  }

  /** The retention test of `updateNodes`, with strict bounds. */
  predicate InRetentionBounds(w: nat, h: nat, p: Point)
  {
    -Margin < p.x < w as real + Margin && -Margin < p.y < h as real + Margin
  }

  /** The test `updateNodes` applies to a node it has just moved. */
  function Retained(s: Sim): Node -> bool
  {
    n => InRetentionBounds(s.width, s.height, PositionOf(s.mouse, n))
  }

  /** One node's step: move by the velocity and advance the phase. The
      pointer node has velocity 0, so its position stays. */
  function Advance(n: Node): Node
  {
    match n
    case Pointer => Pointer
    case Particle(x, y, vx, vy, r, phase) => Particle(x + vx, y + vy, vx, vy, r, phase + AlphaStep)
  }

  /** The moving half of `updateNodes`: every node, in order, one step
      on. */
  function AdvanceAll(ns: seq<Node>): (r: seq<Node>)
    ensures |r| == |ns|
    ensures forall i :: 0 <= i < |ns| ==> r[i] == Advance(ns[i])
    ensures forall i :: 0 <= i < |ns| ==> (r[i].Pointer? <==> ns[i].Pointer?)
    ensures forall i :: 0 <= i < |ns| && ns[i].Particle? ==>
      && r[i].x == ns[i].x + ns[i].vx && r[i].y == ns[i].y + ns[i].vy
      && r[i].vx == ns[i].vx && r[i].vy == ns[i].vy && r[i].r == ns[i].r
      && r[i].phase == ns[i].phase + 0.03
  {
    seq(|ns|, i requires 0 <= i < |ns| => Advance(ns[i]))
  }

  /** `updateNodes()`: every node is moved, and the array is replaced by
      the moved nodes that are still within the retention bounds. */
  function UpdateNodes(s: Sim): (r: Sim)
    ensures r == s.(nodes := r.nodes)
    ensures |r.nodes| <= |s.nodes|
    ensures forall k :: 0 <= k < |r.nodes| ==>
      InRetentionBounds(s.width, s.height, PositionOf(s.mouse, r.nodes[k]))
    ensures Pointer in r.nodes <==> Pointer in s.nodes && InRetentionBounds(s.width, s.height, s.mouse)
  {
    var moved := AdvanceAll(s.nodes);
    var kept := Seqs.Filter(Retained(s), moved);
    assert Pointer in s.nodes ==> Pointer in moved by {
      if Pointer in s.nodes {
        var i :| 0 <= i < |s.nodes| && s.nodes[i] == Pointer;
        assert moved[i] == Pointer;
      }
    }
    assert Pointer in kept ==> Pointer in s.nodes by {
      if Pointer in kept {
        var i :| 0 <= i < |moved| && moved[i] == Pointer;
        assert s.nodes[i] == Pointer;
      }
    }
    s.(nodes := kept)
  }

  /** The survivors of `updateNodes`, in their original order, are exactly
      the nodes whose moved position passes the strict bounds test; each
      ordinary survivor sits at its old position plus its unchanged
      velocity, with its phase advanced by 0.03. */
  lemma UpdateMovesSurvivors(s: Sim)
    ensures var r := UpdateNodes(s).nodes;
      var idx := Seqs.KeptIndices(Retained(s), AdvanceAll(s.nodes));
      && |idx| == |r|
      && (forall k, l :: 0 <= k < l < |idx| ==> idx[k] < idx[l])
      && (forall i :: 0 <= i < |s.nodes| ==>
            (i in idx <==> InRetentionBounds(s.width, s.height, PositionOf(s.mouse, Advance(s.nodes[i])))))
      && (forall k :: 0 <= k < |idx| ==> idx[k] < |s.nodes| && r[k] == Advance(s.nodes[idx[k]]))
      && (forall k :: 0 <= k < |idx| && r[k].Particle? ==>
            var o := s.nodes[idx[k]];
            && o.Particle?
            && r[k].x == o.x + o.vx && r[k].y == o.y + o.vy
            && r[k].vx == o.vx && r[k].vy == o.vy && r[k].r == o.r
            && r[k].phase == o.phase + AlphaStep)
  {
    Seqs.FilterSelectsInOrder(Retained(s), AdvanceAll(s.nodes));
  }

  /** The node count `addNodeIfy` tops up to: the least count that is not
      below `w*h/25000`. */
  function DensityTarget(w: nat, h: nat): (t: nat)
    ensures (w * h) as real / Norm <= t as real
    ensures t == 0 || ((t - 1) as real) < (w * h) as real / Norm
  {
    var area := w * h;
    var t := (area + 24999) / 25000;
    assert 25000 * t >= area && (t == 0 || 25000 * (t - 1) < area);
    t
  }

  /** The comparison `nodes.length < cnv.width * cnv.height / norm`. */
  predicate BelowDensity(s: Sim)
  {
    (|s.nodes| as real) < (s.width * s.height) as real / Norm
  }

  /** Being below the density bound is being below `DensityTarget`. */
  lemma BelowDensityIff(s: Sim)
    ensures BelowDensity(s) <==> |s.nodes| < DensityTarget(s.width, s.height)
  {
  }

  /** `addNodeIfy()`: one node spawned from an edge when the array is below
      the density bound, otherwise nothing; the draws are consumed only in
      the first case. */
  function AddNodeIfy(s: Sim, ds: seq<Unit>): (r: Sim)
    requires |ds| == DrawsPerNode
    ensures r == s.(nodes := r.nodes)
    ensures BelowDensity(s) <==> |r.nodes| == |s.nodes| + 1
    ensures !BelowDensity(s) ==> r == s
    ensures r.nodes[..|s.nodes|] == s.nodes
    ensures BelowDensity(s) ==>
      SpawnedFrom(SpawnSide(ds[0]), r.nodes[|s.nodes|], s.width, s.height, s.radius)
  {
    if BelowDensity(s) then
      s.(nodes := s.nodes + [RandomNode(s.width, s.height, s.radius, ds)])
    else
      s
  }

  function Min(a: int, b: int): int { if a <= b then a else b }

  function Max(a: int, b: int): int { if a >= b then a else b }

  /** `addNodeIfy` called once per block of draws in `dss`. */
  function AddRepeatedly(s: Sim, dss: seq<seq<Unit>>): Sim
    requires forall k :: 0 <= k < |dss| ==> |dss[k]| == DrawsPerNode
    decreases |dss|
  {
    if dss == [] then s else AddRepeatedly(AddNodeIfy(s, dss[0]), dss[1..])
  }

  /** Density ramp: with no pruning in between, repeated `addNodeIfy` calls
      add one node each until the count reaches `DensityTarget`, and then
      add nothing; a count already at or above it stays. */
  lemma {:induction false} DensityRamp(s: Sim, dss: seq<seq<Unit>>)
    requires forall k :: 0 <= k < |dss| ==> |dss[k]| == DrawsPerNode
    ensures var t := DensityTarget(s.width, s.height);
      |AddRepeatedly(s, dss).nodes| == Max(|s.nodes|, Min(|s.nodes| + |dss|, t))
    decreases |dss|
  {
    if dss != [] {
      var s1 := AddNodeIfy(s, dss[0]);
      BelowDensityIff(s);
      DensityRamp(s1, dss[1..]);
    }
  }

  /** One frame's state change after drawing: `updateNodes` then
      `addNodeIfy`. */
  function Tick(s: Sim, ds: seq<Unit>): (r: Sim)
    requires |ds| == DrawsPerNode
    ensures r.width == s.width && r.height == s.height && r.mouse == s.mouse
    ensures |r.nodes| <= |s.nodes| + 1
    ensures Pointer in r.nodes ==> Pointer in s.nodes
    ensures var u := UpdateNodes(s);
      && |u.nodes| <= |r.nodes|
      && r.nodes[..|u.nodes|] == u.nodes
      && (|r.nodes| == |u.nodes| + 1 <==> BelowDensity(u))
      && (|r.nodes| == |u.nodes| + 1 ==>
            SpawnedFrom(SpawnSide(ds[0]), r.nodes[|u.nodes|], s.width, s.height, s.radius))
    ensures |r.nodes| <= Max(|s.nodes|, DensityTarget(s.width, s.height))
  {
    var u := UpdateNodes(s);
    BelowDensityIff(u);
    var r := AddNodeIfy(u, ds);
    assert Pointer in r.nodes ==> Pointer in u.nodes by {
      if BelowDensity(u) {
        assert r.nodes == u.nodes + [r.nodes[|u.nodes|]];
      }
    }
    r
  }

  /** The mouseenter handler: the pointer node is pushed onto the array. */
  function MouseEnter(s: Sim): (r: Sim)
    ensures !s.interactive ==> r == s
    ensures s.interactive ==> r == s.(nodes := r.nodes, mouseIn := true)
    ensures s.interactive ==> |r.nodes| == |s.nodes| + 1 && r.nodes[..|s.nodes|] == s.nodes
    ensures s.interactive ==> multiset(r.nodes) == multiset(s.nodes) + multiset{Pointer}
  {
    if s.interactive then s.(nodes := s.nodes + [Pointer], mouseIn := true) else s
  }

  /** The test the mouseleave handler keeps nodes by: no `type` property. */
  function IsOrdinary(n: Node): bool
  {
    n.Particle?
  }

  /** The mouseleave handler: the array is replaced by its ordinary nodes. */
  function MouseLeave(s: Sim): (r: Sim)
    ensures !s.interactive ==> r == s
    ensures s.interactive ==> r == s.(nodes := r.nodes, mouseIn := false)
    ensures Pointer in r.nodes <==> !s.interactive && Pointer in s.nodes
    ensures forall i :: 0 <= i < |s.nodes| && s.nodes[i].Particle? ==> s.nodes[i] in r.nodes
    ensures forall k :: 0 <= k < |r.nodes| && s.interactive ==> r.nodes[k] in s.nodes
  {
    if s.interactive then
      var kept := Seqs.Filter(IsOrdinary, s.nodes);
      assert forall k :: 0 <= k < |kept| ==> kept[k] != Pointer;
      s.(nodes := kept, mouseIn := false)
    else
      s
  }

  /** Mouseleave keeps the ordinary nodes in their original order and drops
      every pointer entry. */
  lemma LeaveKeepsOrdinaryInOrder(s: Sim)
    requires s.interactive
    ensures var r := MouseLeave(s).nodes;
      var idx := Seqs.KeptIndices(IsOrdinary, s.nodes);
      && |idx| == |r|
      && (forall k, l :: 0 <= k < l < |idx| ==> idx[k] < idx[l])
      && (forall i :: 0 <= i < |s.nodes| ==> (i in idx <==> s.nodes[i].Particle?))
      && (forall k :: 0 <= k < |idx| ==> idx[k] < |s.nodes| && r[k] == s.nodes[idx[k]])
  {
    Seqs.FilterSelectsInOrder(IsOrdinary, s.nodes);
  }

  /** Leaving right after entering restores the array entered with. */
  lemma LeaveUndoesEnter(s: Sim)
    requires s.interactive && Pointer !in s.nodes
    ensures MouseLeave(MouseEnter(s)) == s.(mouseIn := false)
  {
    var entered := MouseEnter(s);
    assert entered.nodes == s.nodes + [Pointer];
    Seqs.FilterSnoc(IsOrdinary, s.nodes, Pointer);
    assert forall i :: 0 <= i < |s.nodes| ==> IsOrdinary(s.nodes[i]) by {
      forall i | 0 <= i < |s.nodes|
        ensures IsOrdinary(s.nodes[i])
      {
        assert s.nodes[i] in s.nodes;
      }
    }
    Seqs.FilterAll(IsOrdinary, s.nodes);
    assert MouseLeave(entered).nodes == s.nodes;
  }

  /** A second mouseleave changes nothing. */
  lemma LeaveIdempotent(s: Sim)
    ensures MouseLeave(MouseLeave(s)) == MouseLeave(s)
  {
    if s.interactive {
      Seqs.FilterIdempotent(IsOrdinary, s.nodes);
    }
  }

  /** The mousemove handler: the shared pointer node takes the event's page
      coordinates. */
  function MouseMove(s: Sim, pageX: real, pageY: real): (r: Sim)
    ensures r.nodes == s.nodes
    ensures s.interactive ==> r == s.(mouse := Point(pageX, pageY))
    ensures !s.interactive ==> r == s
    ensures s.interactive ==> forall i :: 0 <= i < |r.nodes| ==>
      PositionOf(r.mouse, r.nodes[i])
        == if r.nodes[i].Pointer? then Point(pageX, pageY) else PositionOf(s.mouse, s.nodes[i])
  {
    if s.interactive then s.(mouse := Point(pageX, pageY)) else s
  }

  /** The pointer events the handlers react to. */
  datatype PointerEvent = Enter | Leave | Move(pageX: real, pageY: real)

  function HandleEvent(s: Sim, e: PointerEvent): Sim
  {
    match e
    case Enter => MouseEnter(s)
    case Leave => MouseLeave(s)
    case Move(x, y) => MouseMove(s, x, y)
  }

  function HandleEvents(s: Sim, es: seq<PointerEvent>): Sim
    decreases |es|
  {
    if es == [] then s else HandleEvents(HandleEvent(s, es[0]), es[1..])
  }

  /** No sequence of pointer events adds, drops, reorders or changes an
      ordinary node. */
  lemma {:induction false} EventsKeepOrdinaryNodes(s: Sim, es: seq<PointerEvent>)
    ensures Seqs.Filter(IsOrdinary, HandleEvents(s, es).nodes) == Seqs.Filter(IsOrdinary, s.nodes)
    decreases |es|
  {
    if es != [] {
      var s1 := HandleEvent(s, es[0]);
      EventsKeepOrdinaryNodes(s1, es[1..]);
      if s.interactive {
        match es[0]
        case Enter =>
          Seqs.FilterSnoc(IsOrdinary, s.nodes, Pointer);
        case Leave =>
          Seqs.FilterIdempotent(IsOrdinary, s.nodes);
        case Move(_, _) =>
      }
    }
  }
}
